=== FILE: README.md ===
# Strong password fixer — a Dafny model

The repository offers three takes on one exercise. A password is **strong** when:

- it has 6 to 20 characters;
- it has at least one lower-case letter, one upper-case letter and one digit;
- no character occurs three times in a row.

Each take answers how many edits make a password strong:

- **v1, `PasswordValidator`.** Repairs the password greedily, one edit per iteration, and counts the edits. An edit is an insertion, a deletion or a replacement.
  - A password that is too short gets a character inserted.
  - One that is too long loses a character.
  - Otherwise one character is replaced.
  - The position is the end of the first triple in the preferred repeat run, if there is one. Otherwise it is position 0 for an insertion, or the first *safe* index: one whose character class occurs elsewhere in the password. When no index is safe, it is position 0.
  - The character added is chosen by `chooseBestCharacter`: `z` if no lower-case letter is present, else `9` if no digit is present, else `Z`. It is `Y` when that choice would equal the character already at the position.
- **v2, `PasswordValidator2`.** The same loop, refactored:
  - one fused pass checks the character classes;
  - strength is checked without the length test, and only once the length is within bounds;
  - the answer is the step count alone.
- **v3, `Solution.passwordChecker`.** A counting sketch. It computes the insertions or deletions the length needs. In one pass over the runs of equal characters it tallies the replacements each run needs, split by whether the run length is a multiple of 3. It always returns 1.

The model keeps the greedy loops exact. The v1 loop is `GreedyLoop.LoopV1` and the v2 loop is `GreedyLoop.LoopV2`. Both are written once over an edit function and a strength test, and take a `fuel` bound on the number of iterations. With the greedy edit of `Validator.GreedyEdit` they become:

- `Validator.StrongPasswordChecker` (v1);
- `Validator2.StrongPasswordChecker2` (v2).

`None` means the fuel ran out. For some passwords the Java loop never stops, and the model proves this for one of them.

Modules:

- `LengthPolicy`: the bounds 6 and 20.
- `CharClasses`: the character-class tests.
- `Runs` and `RunSelection`: decomposition into runs and the choice of `repeatingIndex`.
- `Edits`: the character choice, insertion, replacement, deletion and the safe index.
- `GreedyLoop`: the two loops, generic over edit and test.
- `Validator`: v1.
- `Validator2`: v2.
- `Solution`: v3.
- `Examples`: worked cases.

The v2 helpers other than the fused class check are the same as v1's: `chooseBestCharacter`, `addCharacter`, `changeCharacter`, `repeatingIndex` and `findSafeIndex`. They are modelled once, and the rows below cite the v1 lines.

## Model

| member | source | states |
|---|---|---|
| LengthPolicy.TooShort | src/com/stancu/v1/PasswordValidator.java:20-22 | `checkMinLength`: true when the password is shorter than 6; what it means for the loop is stated by `Solution.LengthChecksMatchCounts` and `Validator.GreedyEdit` |
| LengthPolicy.TooLong | src/com/stancu/v1/PasswordValidator.java:25-27 | `checkMaxLength`: true when the password is longer than 20; what it means for the loop is stated by `Solution.LengthChecksMatchCounts` and `Validator.GreedyEdit` |
| CharClasses.Contains | src/com/stancu/v1/PasswordValidator.java:30-60 | `containsLowerCase`, `containsUpperCase` and `containsDigit` answer true exactly when some character of the class occurs |
| CharClasses.ContainsFrom | src/com/stancu/v1/PasswordValidator.java:32-37 | the scan from a position answers true exactly when a character of the class occurs at or after it |
| CharClasses.ContainsProperCharCases | src/com/stancu/v1/PasswordValidator.java:63-65 | true exactly when a digit, a lower-case and an upper-case letter all occur |
| CharClasses.FusedScan | src/com/stancu/v2_refactored/PasswordValidator2.java:63-74 | the one-pass loop with its three flags stops with true exactly when the three classes are all covered by the flags and the remaining characters |
| CharClasses.ContainsProperCharCasesFused | src/com/stancu/v2_refactored/PasswordValidator2.java:61-75 | the fused v2 check is true exactly when all three classes occur |
| CharClasses.FusedScanAgrees | src/com/stancu/v2_refactored/PasswordValidator2.java:61-75 | the fused v2 check and the three-call v1 check always agree |
| Edits.ChooseBestCharacter | src/com/stancu/v1/PasswordValidator.java:72-84 | the chosen character differs from the one at the position; it is `z` when no lower-case letter is present, `9` when lower case is present but no digit, and `Z` otherwise, except that `Z` at the position turns the last choice into `Y` |
| Edits.AddCharacter | src/com/stancu/v1/PasswordValidator.java:87-91 | the insertion places the chosen character at the position, keeps everything before and after it, and the inserted character differs from the one it now precedes |
| Edits.ChangeCharacter | src/com/stancu/v1/PasswordValidator.java:97-106 | the replacement writes the chosen character at the position, keeps the length and every other position, and really changes the character there |
| Edits.DeleteCharacter | src/com/stancu/v1/PasswordValidator.java:248 | the substring splice drops exactly the character at the position and shifts the rest down by one |
| Edits.AddThenDelete | src/com/stancu/v1/PasswordValidator.java:87-91 | deleting the inserted character gives back the original password |
| Edits.AddCharacterCoverage | src/com/stancu/v1/PasswordValidator.java:72-91 | an insertion loses no character class, and adds lower case when it was missing, or a digit when only that was missing |
| Edits.DeleteKeepsElsewhere | src/com/stancu/v1/PasswordValidator.java:194-203 | the truncated password has a class exactly when the class occurs at some other position |
| Edits.FindSafeFrom | src/com/stancu/v1/PasswordValidator.java:191-204 | the loop from a position returns the first safe index at or after it, or 0 when there is none |
| Edits.FindSafeIndex | src/com/stancu/v1/PasswordValidator.java:190-206 | the result is a valid index; it is the first safe index when one exists, and 0 otherwise |
| Edits.SafeDeleteKeepsCoverage | src/com/stancu/v1/PasswordValidator.java:183-189 | deleting at a safe index keeps all three classes, as the comment above `findSafeIndex` argues |
| Edits.SafeChangeKeepsCoverage | src/com/stancu/v1/PasswordValidator.java:255-263 | replacing at a safe index keeps all three classes |
| Edits.SafeCutKeepsClass | src/com/stancu/v1/PasswordValidator.java:183-189 | deleting or replacing at a safe index keeps each class that was present, one class at a time, even when another class is missing |
| Edits.TripleCutKeepsClasses | src/com/stancu/v1/PasswordValidator.java:244-263 | deleting or replacing the third character of a triple keeps every class, since its two equal neighbours remain |
| Runs.Partitions | src/com/stancu/v1/PasswordValidator.java:115-135 | the partition loop splits a nonempty password into maximal runs of equal characters that concatenate back to it; the empty password gives one empty partition |
| Runs.PartitionLoop | src/com/stancu/v1/PasswordValidator.java:115-135 | the split loop itself, one call per index, closing a piece at each change of character and always adding the trailing piece; what it computes is stated by `Runs.PartitionLoopDecomposes` and `Runs.PartitionsCharacterised` |
| Runs.PartitionLoopDecomposes | src/com/stancu/v1/PasswordValidator.java:118-135 | each step of the split loop keeps the collected partitions a run decomposition of the prefix, and the final add completes it |
| Runs.DecompositionUnique | src/com/stancu/v1/PasswordValidator.java:108-113 | two run decompositions of the same text are equal |
| Runs.PartitionsCharacterised | src/com/stancu/v1/PasswordValidator.java:115-135 | a list of pieces is a maximal-run decomposition of a nonempty password if and only if it is the list the loop builds |
| RunSelection.BigRunGivesTriple | src/com/stancu/v1/PasswordValidator.java:144-150 | a run of length at least 3 starts a triple of equal characters |
| RunSelection.TripleInBigRun | src/com/stancu/v1/PasswordValidator.java:144-150 | any triple of equal characters lies in a run of length at least 3 |
| RunSelection.MaxLength | src/com/stancu/v1/PasswordValidator.java:138-143 | the maximum bounds every partition length and is attained by one of them |
| RunSelection.NoBigRunIffNoTriple | src/com/stancu/v1/PasswordValidator.java:144-150 | the maximum partition length is below 3 exactly when no character occurs three times in a row |
| RunSelection.FirstActionable | src/com/stancu/v1/PasswordValidator.java:154-173 | finds the first partition of length at least 3 with a given remainder mod 3, after a given one |
| RunSelection.SelectRun | src/com/stancu/v1/PasswordValidator.java:151-180 | the selection loop with `mod1Index`/`mod2Index`: it answers an offset at or after the current partition, one of the two remembered offsets, or the trailing 0; which one is stated by `RunSelection.SelectRunPicksPreferred` |
| RunSelection.SelectRunPicksPreferred | src/com/stancu/v1/PasswordValidator.java:151-180 | the selection loop, with its `mod1Index`/`mod2Index` bookkeeping, returns the offset of the first long run with remainder 0, else remainder 1, else remainder 2 |
| RunSelection.PreferredOffsetIsPreferred | src/com/stancu/v1/PasswordValidator.java:151-180 | when some run has length at least 3, the preferred offset is the start of a preferred run |
| RunSelection.RepeatingIndex | src/com/stancu/v1/PasswordValidator.java:114-181 | the result is -1 exactly when there is no triple; otherwise it is the start of a triple at a run boundary |
| RunSelection.RepeatingIndexPrefers | src/com/stancu/v1/PasswordValidator.java:151-180 | a non-negative result is the offset of a preferred run: no run of length at least 3 anywhere has a smaller length remainder mod 3, and among those with the same remainder it comes first |
| Validator.IsStrongPassword | src/com/stancu/v1/PasswordValidator.java:209-225 | true exactly when the length is within 6..20, there is no triple and all three classes occur |
| Validator.EditIndex | src/com/stancu/v1/PasswordValidator.java:231-261 | the position edited is valid; with a triple it is two past the start of the run `repeatingIndex` prefers; otherwise it is 0 for an insertion, and for a deletion or replacement the first safe index, or 0 when no index is safe |
| Validator.GreedyEdit | src/com/stancu/v1/PasswordValidator.java:233-264 | one iteration grows a short password by one, shrinks a long one by one, and keeps the length of one within bounds |
| Validator.GreedyInsertUndone | src/com/stancu/v1/PasswordValidator.java:233-240 | deleting what one iteration inserted into a short password gives the password back |
| Validator.GreedyEditKeepsClass | src/com/stancu/v1/PasswordValidator.java:231-264 | an iteration never loses a character class the password has, whether or not the others are present, when it edits a triple, inserts, or has a safe index |
| Validator.GreedyEditKeepsCoverage | src/com/stancu/v1/PasswordValidator.java:231-264 | hence, in the same cases, a password with all three classes keeps all three |
| Validator.Trace | src/com/stancu/v1/PasswordValidator.java:229-271 | after n iterations the length has moved by at most n |
| Validator.StrongPasswordChecker | src/com/stancu/v1/PasswordValidator.java:227-273 | when the loop stops, the final password is strong; a strong password stops at once with 0 steps |
| Validator.CheckerIdempotent | src/com/stancu/v1/PasswordValidator.java:249-254 | running the checker again on the password it produced stops at once with 0 steps |
| Validator.CheckerFollowsTrace | src/com/stancu/v1/PasswordValidator.java:227-273 | the final password is the trace after the returned number of steps; no earlier password of the trace is strong; the count is at least the length shortfall or excess |
| Validator.CheckerCountsToFirstStrong | src/com/stancu/v1/PasswordValidator.java:227-273 | conversely, if the n-th password of the trace is the first strong one, the loop stops after n steps with it |
| GreedyLoop.LoopV1 | src/com/stancu/v1/PasswordValidator.java:229-271 | the v1 loop, for any edit and test, stops only on a password passing the test; a password that is in bounds and passes stops at once |
| GreedyLoop.LoopV1FollowsTrace | src/com/stancu/v1/PasswordValidator.java:229-271 | when the v1 loop stops, its password is the edit applied the returned number of times, and no earlier password of that trace passes the test |
| GreedyLoop.LoopV1ReachesStrong | src/com/stancu/v1/PasswordValidator.java:229-271 | if the n-th password of the trace passes the test and the bound allows n iterations, the loop stops within n steps |
| GreedyLoop.LoopV1Answer | src/com/stancu/v1/PasswordValidator.java:227-273 | the count from 0 reaches the first passing password of the trace, and is at least the length shortfall or excess when one edit moves the length by at most one |
| GreedyLoop.LoopV1StopsAtFirstStrong | src/com/stancu/v1/PasswordValidator.java:227-273 | if the n-th password of the trace is the first to pass, the loop answers exactly n and that password |
| GreedyLoop.V1StopsThenV2Stops | src/com/stancu/v2_refactored/PasswordValidator2.java:228-264 | whenever the v1 loop stops, the v2 loop given one more iteration stops with the same outcome |
| GreedyLoop.V2StopsThenV1Stops | src/com/stancu/v2_refactored/PasswordValidator2.java:228-264 | whenever the v2 loop stops, the v1 loop with the same bound stops with the same outcome |
| GreedyLoop.LoopV1Cycles | src/com/stancu/v1/PasswordValidator.java:229-271 | if the edit swaps two passwords that both fail the test, the loop never stops |
| GreedyLoop.LoopV1MoreFuel | src/com/stancu/v1/PasswordValidator.java:229-271 | a bound on iterations that lets the loop stop gives the same answer when raised |
| GreedyLoop.LoopV2 | src/com/stancu/v2_refactored/PasswordValidator2.java:228-264 | the v2 loop stops only on a password passing the reduced test; one within bounds that passes stops at once |
| GreedyLoop.LoopV2MoreFuel | src/com/stancu/v2_refactored/PasswordValidator2.java:228-264 | raising a sufficient bound on iterations keeps the v2 answer |
| GreedyLoop.LoopsAgree | src/com/stancu/v2_refactored/PasswordValidator2.java:226-266 | when the reduced test equals the full one within bounds, the v1 and v2 loops stop together with the same outcome, v2 needing at most one more iteration |
| Validator2.IsStrongPasswordEnough | src/com/stancu/v2_refactored/PasswordValidator2.java:218-224 | true exactly when there is no triple and all three classes occur, whatever the length |
| Validator2.EnoughMeansStrongWithinBounds | src/com/stancu/v2_refactored/PasswordValidator2.java:248-258 | within the length bounds the reduced test agrees with `isStrongPassword` |
| Validator2.StrongPasswordChecker2 | src/com/stancu/v2_refactored/PasswordValidator2.java:226-266 | a strong password gives 0 steps |
| Validator2.CheckersAgree | src/com/stancu/v2_refactored/PasswordValidator2.java:226-266 | the refactored checker stops exactly when the first one does and returns the same step count |
| Validator2.Checker2CountsToFirstStrong | src/com/stancu/v2_refactored/PasswordValidator2.java:226-266 | the v2 count is the index of the first strong password of the greedy trace |
| Solution.ThreeKShare | src/com/stancu/v3_faster_ideas/Solution.java:46-47 | a run adds to `threeKSeq` exactly when its length is a positive multiple of 3, and then adds the number of triples it consists of; with `notThreeKSeq`'s share it makes up one replacement per three characters |
| Solution.NotThreeKShare | src/com/stancu/v3_faster_ideas/Solution.java:46-49 | a run whose length is not a multiple of 3 adds its replacement cost to `notThreeKSeq`; a multiple of 3 adds nothing |
| Solution.TalliesSplitReplacements | src/com/stancu/v3_faster_ideas/Solution.java:46-49 | the two tallies add up to one replacement per three characters of every run |
| Solution.ReplacementTotalZero | src/com/stancu/v3_faster_ideas/Solution.java:46-49 | the replacement total is 0 exactly when every run is shorter than 3 |
| Solution.NoReplacementIffNoTriple | src/com/stancu/v3_faster_ideas/Solution.java:35-54 | the tallies over the password's runs sum to 0 exactly when it has no triple |
| Solution.LengthChecksMatchCounts | src/com/stancu/v3_faster_ideas/Solution.java:30-33 | v1's `checkMinLength` fires exactly when v3 counts insertions, `checkMaxLength` exactly when it counts deletions, and neither fires exactly when both counts are 0 |
| Solution.LengthCorrection | src/com/stancu/v3_faster_ideas/Solution.java:26-33 | the insertions are exactly 6 minus the length of a short password and the deletions exactly the length minus 20 of a long one; they bring the length into 6..20, never both are counted, and neither is counted for a length in bounds |
| Solution.ExtendRun | src/com/stancu/v3_faster_ideas/Solution.java:40-44 | the inner loop stops at the end of the current run; `sequenceLength` is the run's length |
| Solution.CloseRun | src/com/stancu/v3_faster_ideas/Solution.java:46-53 | closing a maximal run keeps the scanned prefix a run decomposition and adds the run's shares to the tallies |
| Solution.LastRunUnvisited | src/com/stancu/v3_faster_ideas/Solution.java:38-54 | when the scan stops on the last position, the unvisited final run of length 1 completes the partition and adds nothing to either tally |
| Solution.ScanFinish | src/com/stancu/v3_faster_ideas/Solution.java:38-54 | when the scan ends, the tallies over the runs it closed equal the tallies over the password's partition |
| Solution.ScanRuns | src/com/stancu/v3_faster_ideas/Solution.java:35-54 | the scan's tallies are the totals over the password's maximal runs, the same partition `repeatingIndex` builds |
| Solution.PasswordChecker | src/com/stancu/v3_faster_ideas/Solution.java:24-58 | the answer is always 1; the length counts are those of the length correction; the tallies are the totals over the same runs `repeatingIndex` splits the password into |
| Examples.ShortPasswordExample | src/com/stancu/v1/PasswordValidator.java:227-273 | `"a"` takes 5 steps and ends as `"YZYZ9a"` |
| Examples.FallbackLosesClass | src/com/stancu/v1/PasswordValidator.java:251-263 | the fallback to position 0 can lose a class: `"aB1!@#"` has no safe index and becomes `"ZB1!@#"`, with no lower-case letter left |
| Examples.NeverStopsExample | src/com/stancu/v2_refactored/PasswordValidator2.java:226-266 | on `"!@#$%a"` both checkers swap between `"9@#$%a"` and `"Z@#$%a"` and never stop, whatever the bound |
| Examples.FirstRunChosen | src/com/stancu/v1/PasswordValidator.java:162-164 | in `"aaa111"` the first run of length a multiple of 3 is chosen |
| Examples.SecondRunChosen | src/com/stancu/v1/PasswordValidator.java:154-173 | in `"aaZ111"` the run `111` is chosen |
| Examples.RunsExample | src/com/stancu/v1/PasswordValidator.java:249-270 | `"aaa111"` takes 2 replacements and ends as `"aaZ11Z"` |
| Examples.RunsExample2 | src/com/stancu/v2_refactored/PasswordValidator2.java:248-263 | the refactored checker also counts 2 for `"aaa111"` |
| Examples.AlreadyStrongExample | src/com/stancu/v1/PasswordValidator.java:249-254 | `"1337C0d3"` needs 0 steps in both checkers |
| Examples.CountsExample | src/com/stancu/v3_faster_ideas/Solution.java:38-54 | for `"aaaa111"` the sketch counts one replacement in each tally |

## Left out

- Console output: the `System.out.println` of the final password in v1 (lines 252 and 268) is not modelled.
- A password is modelled as a sequence of characters from the Basic Multilingual Plane, one per UTF-16 code unit, as Java's `length()`, `charAt` and `toCharArray` see it. A character outside that plane is two surrogate units in Java but one `char` in the model, so lengths and repeat runs would differ on such input.
- Character classes are ASCII only: `0`-`9`, `a`-`z`, `A`-`Z`. Java's `Character.isDigit`, `isLowerCase` and `isUpperCase` also accept other Unicode letters and digits.
- The bounds 6 and 20 come from a `PasswordConstants` class. That class is not part of this model; the values are the ones v3 writes out itself.
- The empty password makes all three Java versions read position 0 and throw. The greedy checkers therefore take a nonempty `Password`, and `Solution.PasswordChecker` requires a nonempty input.
- Validator.StrongPasswordChecker: the Java loop is `while (true)`. The model adds an iteration bound `fuel` and answers `None` when it is exhausted. Termination is not proved because it does not hold in general: `Examples.NeverStopsExample` shows a password on which the loop runs for ever.
- Validator2.StrongPasswordChecker2: same iteration bound as the first checker. It can need one more iteration than v1 when an insertion or deletion makes the password strong, because v2 does not test strength after an insertion or deletion.
- Minimality of the step count is neither claimed nor proved. The greedy loop is a heuristic.
- v2 calls `findSafeIndex` on every iteration, even when the result is overwritten. It is a pure function, so the model computes it only where it is used.
- `convertToInt` (v2 lines 77-79) is never called and is not modelled.
- v3 never combines its counts and always answers 1. The block comment of lines 5-20 describes a plan, not code, and is not modelled. The model returns the counts it gathers alongside the answer, so they can be stated.
- In v3 the scan loop never visits a final run of length 1, which would add nothing to either tally. The model accounts for that run in a lemma after the loop.
- Java `int` overflow: offsets and lengths stay within the string length, and v3's counts are at most that length plus 6. The loop counter `steps` is modelled as an unbounded `nat`. A Java `steps` would wrap only after more than 2^31 − 1 iterations, and the model does not represent that wrap-around.

=== FILE: char_classes.dfy ===
/** The three character classes of the policy and the scans that look for them.
    Classes are the ASCII ranges `0-9`, `a-z` and `A-Z`; the Unicode notion of
    case used by `Character.isLowerCase` and friends is not modelled. */
module CharClasses {

  datatype CharClass = Digit | Lower | Upper

  predicate InClass(c: char, k: CharClass) {
    match k
    case Digit => '0' <= c <= '9'
    case Lower => 'a' <= c <= 'z'
    case Upper => 'A' <= c <= 'Z'
  }

  /** Some character of `s` at position `from` or later is of class `k`. */
  ghost predicate HasFrom(s: seq<char>, from: nat, k: CharClass) {
    exists j :: from <= j < |s| && InClass(s[j], k)
  }

  ghost predicate Has(s: seq<char>, k: CharClass) {
    HasFrom(s, 0, k)
  }

  /** Class coverage: a digit, a lowercase and an uppercase letter all occur. */
  ghost predicate HasAll(s: seq<char>) {
    Has(s, Digit) && Has(s, Lower) && Has(s, Upper)
  }

  /** The left-to-right scan of `containsDigit`, `containsLowerCase` and
      `containsUpperCase`, resumed at position `from`: it stops at the first
      character of the class. */
  function ContainsFrom(s: seq<char>, from: nat, k: CharClass): (r: bool)
    decreases |s| - from
    ensures r <==> HasFrom(s, from, k)
  {
    if from >= |s| then false
    else if InClass(s[from], k) then true
    else ContainsFrom(s, from + 1, k)
  }

  function Contains(s: seq<char>, k: CharClass): (r: bool)
    ensures r <==> Has(s, k)
  {
    ContainsFrom(s, 0, k)
  }

  /** v1 `containsProperCharCases`: the conjunction of the three scans. */
  function ContainsProperCharCases(s: seq<char>): (r: bool)
    ensures r <==> HasAll(s)
  {
    Contains(s, Digit) && Contains(s, Lower) && Contains(s, Upper)
  }

  /** The fused single scan of v2 `containsProperCharCases`, resumed at
      position `i` with the three flags gathered so far. It answers true as
      soon as all three flags are set after reading a character, so it needs
      at least one character still to read. */
  function FusedScan(s: seq<char>, i: nat, hasDigit: bool, hasUpper: bool, hasLower: bool): (r: bool)
    decreases |s| - i
    ensures r <==> i < |s|
                   && (hasDigit || HasFrom(s, i, Digit))
                   && (hasUpper || HasFrom(s, i, Upper))
                   && (hasLower || HasFrom(s, i, Lower))
  {
    if i >= |s| then false
    else
      var d := hasDigit || InClass(s[i], Digit);
      var u := hasUpper || InClass(s[i], Upper);
      var l := hasLower || InClass(s[i], Lower);
      if d && u && l then true
      else FusedScan(s, i + 1, d, u, l)
  }

  /** v2 `containsProperCharCases`. */
  function ContainsProperCharCasesFused(s: seq<char>): (r: bool)
    ensures r <==> HasAll(s)
  {
    FusedScan(s, 0, false, false, false)
  }

  /** The refactored single scan answers exactly as the three separate scans. */
  lemma FusedScanAgrees(s: seq<char>)
    ensures ContainsProperCharCasesFused(s) == ContainsProperCharCases(s)
  {
  }
}

=== FILE: edits.dfy ===
/** The single-character edits of the greedy fixer and the choice of what to
    write (`chooseBestCharacter`) and where to delete (`findSafeIndex`). */
module Edits {
  import opened CharClasses
  import opened Runs

  /** `chooseBestCharacter`: 'z' while there is no lowercase letter, else '9'
      while there is no digit, else 'Z'; 'Y' instead when the candidate equals
      the character at `index` (`chooseBestCharacter` reads `password[index]`,
      so the index must be in range). */
  function ChooseBestCharacter(s: seq<char>, index: nat): (c: char)
    requires index < |s|
    ensures c != s[index]
    ensures !Has(s, Lower) ==> c == 'z'
    ensures Has(s, Lower) && !Has(s, Digit) ==> c == '9'
    ensures Has(s, Lower) && Has(s, Digit) ==> c == (if s[index] == 'Z' then 'Y' else 'Z')
    ensures c == 'Y' ==> s[index] == 'Z'
  {
    var dummy := if !Contains(s, Lower) then 'z' else if !Contains(s, Digit) then '9' else 'Z';
    if s[index] == dummy then 'Y' else dummy
  }

  /** `addCharacter`: insert the chosen character before position `index`. */
  function AddCharacter(s: seq<char>, index: nat): (t: seq<char>)
    requires index < |s|
    ensures |t| == |s| + 1
    ensures t[..index] == s[..index] && t[index + 1..] == s[index..]
    ensures t[index] == ChooseBestCharacter(s, index)
    ensures t[index] != t[index + 1]
  {
    s[..index] + [ChooseBestCharacter(s, index)] + s[index..]
  }

  /** `changeCharacter`: overwrite position `index` with the chosen character. */
  function ChangeCharacter(s: seq<char>, index: nat): (t: seq<char>)
    requires index < |s|
    ensures |t| == |s|
    ensures forall j :: 0 <= j < |s| && j != index ==> t[j] == s[j]
    ensures t[index] == ChooseBestCharacter(s, index)
    ensures t[index] != s[index]
  {
    s[index := ChooseBestCharacter(s, index)]
  }

  /** Removal of position `index`, as `password.substring(0, index) +
      password.substring(index + 1)`. */
  function DeleteCharacter(s: seq<char>, index: nat): (t: seq<char>)
    requires index < |s|
    ensures |t| + 1 == |s|
    ensures forall j :: 0 <= j < index ==> t[j] == s[j]
    ensures forall j :: index <= j < |t| ==> t[j] == s[j + 1]
  {
    s[..index] + s[index + 1..]
  }

  /** Deleting what was just inserted gives the password back. */
  lemma AddThenDelete(s: seq<char>, index: nat)
    requires index < |s|
    ensures DeleteCharacter(AddCharacter(s, index), index) == s
  {
    var t := AddCharacter(s, index);
    assert t[..index] + t[index + 1..] == s[..index] + s[index..];
    assert s[..index] + s[index..] == s;
  }

  /** Inserting never loses a class, and it adds the class the chosen
      character was picked to supply. */
  lemma AddCharacterCoverage(s: seq<char>, index: nat)
    requires index < |s|
    ensures forall k :: Has(s, k) ==> Has(AddCharacter(s, index), k)
    ensures !Has(s, Lower) ==> Has(AddCharacter(s, index), Lower)
    ensures Has(s, Lower) && !Has(s, Digit) ==> Has(AddCharacter(s, index), Digit)
  {
    var t := AddCharacter(s, index);
    forall k | Has(s, k)
      ensures Has(t, k)
    {
      var j :| 0 <= j < |s| && InClass(s[j], k);
      if j < index {
        assert t[j] == s[j];
      } else {
        assert t[j + 1] == s[j];
      }
    }
    assert t[index] == ChooseBestCharacter(s, index);
  }

  // ---------------------------------------------------------------------------
  // Safe index

  /** Some position other than `i` holds a character of class `k`. */
  ghost predicate HasElsewhere(s: seq<char>, i: nat, k: CharClass) {
    exists j :: 0 <= j < |s| && j != i && InClass(s[j], k)
  }

  /** Position `i` holds a digit or letter whose class still occurs elsewhere,
      so removing or overwriting it keeps that class present. */
  ghost predicate Safe(s: seq<char>, i: nat) {
    && i < |s|
    && exists k :: InClass(s[i], k) && HasElsewhere(s, i, k)
  }

  lemma DeleteKeepsElsewhere(s: seq<char>, i: nat, k: CharClass)
    requires i < |s|
    ensures Has(DeleteCharacter(s, i), k) <==> HasElsewhere(s, i, k)
  {
    var t := DeleteCharacter(s, i);
    if HasElsewhere(s, i, k) {
      var j :| 0 <= j < |s| && j != i && InClass(s[j], k);
      if j < i {
        assert t[j] == s[j];
      } else {
        assert t[j - 1] == s[j];
      }
    }
  }

  /** The scan of `findSafeIndex` from position `i` on; 0 when it finds nothing. */
  function FindSafeFrom(s: seq<char>, i: nat): (r: nat)
    decreases |s| - i
    ensures (exists j :: i <= j < |s| && Safe(s, j)) ==>
              i <= r < |s| && Safe(s, r) && forall j :: i <= j < r ==> !Safe(s, j)
    ensures (forall j :: i <= j < |s| ==> !Safe(s, j)) ==> r == 0
  {
    if i >= |s| then 0
    else
      var c := s[i];
      var truncated := DeleteCharacter(s, i);
      DeleteKeepsElsewhere(s, i, Digit);
      DeleteKeepsElsewhere(s, i, Lower);
      DeleteKeepsElsewhere(s, i, Upper);
      assert (exists k :: InClass(c, k) && Contains(truncated, k)) ==> Safe(s, i);
      if InClass(c, Digit) && Contains(truncated, Digit) then i
      else if InClass(c, Lower) && Contains(truncated, Lower) then i
      else if InClass(c, Upper) && Contains(truncated, Upper) then i
      else FindSafeFrom(s, i + 1)
  }

  /** `findSafeIndex`: the first safe position, or 0 when there is none. */
  function FindSafeIndex(s: seq<char>): (r: nat)
    ensures |s| > 0 ==> r < |s|
    ensures (exists j :: 0 <= j < |s| && Safe(s, j)) ==>
              Safe(s, r) && forall j :: 0 <= j < r ==> !Safe(s, j)
    ensures (forall j :: 0 <= j < |s| ==> !Safe(s, j)) ==> r == 0
  {
    FindSafeFrom(s, 0)
  }

  /** Removing a safe position keeps class coverage. */
  lemma SafeDeleteKeepsCoverage(s: seq<char>, i: nat)
    requires HasAll(s) && Safe(s, i)
    ensures HasAll(DeleteCharacter(s, i))
  {
    forall k
      ensures HasElsewhere(s, i, k)
    {
      var j :| 0 <= j < |s| && InClass(s[j], k);
      if j == i {
        var k' :| InClass(s[i], k') && HasElsewhere(s, i, k');
        assert k' == k by {
          match k case Digit => case Lower => case Upper =>
        }
      }
    }
    DeleteKeepsElsewhere(s, i, Digit);
    DeleteKeepsElsewhere(s, i, Lower);
    DeleteKeepsElsewhere(s, i, Upper);
  }

  /** Overwriting a safe position keeps class coverage. */
  lemma SafeChangeKeepsCoverage(s: seq<char>, i: nat)
    requires HasAll(s) && Safe(s, i)
    ensures HasAll(ChangeCharacter(s, i))
  {
    var t := ChangeCharacter(s, i);
    SafeDeleteKeepsCoverage(s, i);
    forall k | Has(DeleteCharacter(s, i), k)
      ensures Has(t, k)
    {
      DeleteKeepsElsewhere(s, i, k);
      var j :| 0 <= j < |s| && j != i && InClass(s[j], k);
      assert t[j] == s[j];
    }
  }

  /** Removing or overwriting a safe position keeps each class that is
      present, class by class, whether or not the others are present. */
  lemma SafeCutKeepsClass(s: seq<char>, i: nat, k: CharClass)
    requires Safe(s, i) && Has(s, k)
    ensures Has(DeleteCharacter(s, i), k)
    ensures Has(ChangeCharacter(s, i), k)
  {
    var j :| 0 <= j < |s| && InClass(s[j], k);
    if j == i {
      var k' :| InClass(s[i], k') && HasElsewhere(s, i, k');
      assert k' == k by {
        match k case Digit => case Lower => case Upper =>
      }
    }
    assert HasElsewhere(s, i, k);
    DeleteKeepsElsewhere(s, i, k);
    var j' :| 0 <= j' < |s| && j' != i && InClass(s[j'], k);
    assert ChangeCharacter(s, i)[j'] == s[j'];
  }

  /** The third character of a triple shares its class with the first, so
      deleting or overwriting it keeps every class present. */
  lemma TripleCutKeepsClasses(s: seq<char>, r: int, k: CharClass)
    requires TripleAt(s, r) && Has(s, k)
    ensures Has(DeleteCharacter(s, r + 2), k)
    ensures Has(ChangeCharacter(s, r + 2), k)
  {
    var j :| 0 <= j < |s| && InClass(s[j], k);
    var j' := if j == r + 2 then r else j;
    assert j' != r + 2 && InClass(s[j'], k);
    DeleteKeepsElsewhere(s, r + 2, k);
    assert ChangeCharacter(s, r + 2)[j'] == s[j'];
  }
}

=== FILE: examples.dfy ===
/** Worked runs of the checkers on fixed passwords. Each lemma takes the
    password as a parameter equal to the literal, which keeps the verifier
    from evaluating every branch of the edit on the literal. */
module Examples {
  import opened Wrappers
  import opened CharClasses
  import opened LengthPolicy
  import opened Runs
  import opened RunSelection
  import opened Edits
  import opened GreedyLoop
  import opened Validator
  import opened Validator2
  import Solution

  // "a" grows at the front: '9' for the missing digit, then 'Z' and 'Y'
  // alternately so that no letter is repeated three times.

  lemma ShortGrows1(s: Password)
    requires s == "a"
    ensures GreedyEdit(s) == "9a"
  {
    assert InClass(s[0], Lower);
  }

  lemma ShortGrows2(s: Password)
    requires s == "9a"
    ensures GreedyEdit(s) == "Z9a"
  {
    assert InClass(s[0], Digit) && InClass(s[1], Lower);
  }

  lemma ShortGrows3(s: Password)
    requires s == "Z9a"
    ensures GreedyEdit(s) == "YZ9a"
  {
    assert InClass(s[1], Digit) && InClass(s[2], Lower);
  }

  lemma ShortGrows4(s: Password)
    requires s == "YZ9a"
    ensures GreedyEdit(s) == "ZYZ9a"
  {
    assert InClass(s[2], Digit) && InClass(s[3], Lower);
  }

  lemma ShortGrows5(s: Password)
    requires s == "ZYZ9a"
    ensures GreedyEdit(s) == "YZYZ9a"
  {
    assert InClass(s[3], Digit) && InClass(s[4], Lower);
  }

  lemma ShortTrace(a: Password)
    requires a == "a"
    ensures Trace(a, 5) == "YZYZ9a"
  {
    ShortGrows1(a);
    var s1 := GreedyEdit(a);
    ShortGrows2(s1);
    var s2 := GreedyEdit(s1);
    ShortGrows3(s2);
    var s3 := GreedyEdit(s2);
    ShortGrows4(s3);
    var s4 := GreedyEdit(s3);
    ShortGrows5(s4);
    TraceStep(a, 5);
    TraceStep(s1, 4);
    TraceStep(s2, 3);
    TraceStep(s3, 2);
    TraceStep(s4, 1);
  }

  lemma ShortEndsStrong(s: seq<char>)
    requires s == "YZYZ9a"
    ensures Strong(s)
  {
    assert InClass(s[0], Upper) && InClass(s[4], Digit) && InClass(s[5], Lower);
  }

  /** "a" takes five insertions and ends as "YZYZ9a". */
  lemma ShortPasswordExample(a: Password, fuel: nat)
    requires a == "a" && fuel >= 5
    ensures StrongPasswordChecker(a, fuel) == Some(Outcome(5, Trace(a, 5)))
    ensures Trace(a, 5) == "YZYZ9a"
  {
    ShortTrace(a);
    ShortEndsStrong(Trace(a, 5));
    forall m | 0 <= m < 5
      ensures !Strong(Trace(a, m))
    {
    }
    CheckerCountsToFirstStrong(a, fuel, 5);
  }

  // "!@#$%a" has the right length but neither a digit nor an uppercase
  // letter, and no position is safe, so every replacement hits position 0:
  // the digit '9' put there is overwritten by 'Z' on the next iteration,
  // and 'Z' by '9' again.

  lemma CycleStep1(s: Password)
    requires s == "!@#$%a"
    ensures GreedyEdit(s) == "9@#$%a" && !IsStrongPassword(s)
  {
    assert NoTriple(s);
    assert forall j :: 0 <= j < |s| ==> !Safe(s, j);
    assert InClass(s[5], Lower);
  }

  lemma CycleStep2(s: Password)
    requires s == "9@#$%a"
    ensures GreedyEdit(s) == "Z@#$%a" && !IsStrongPassword(s)
  {
    assert NoTriple(s);
    assert forall j :: 0 <= j < |s| ==> !Safe(s, j);
    assert InClass(s[0], Digit) && InClass(s[5], Lower);
  }

  lemma CycleStep3(s: Password)
    requires s == "Z@#$%a"
    ensures GreedyEdit(s) == "9@#$%a" && !IsStrongPassword(s)
  {
    assert NoTriple(s);
    assert forall j :: 0 <= j < |s| ==> !Safe(s, j);
    assert InClass(s[0], Upper) && InClass(s[5], Lower);
  }

  /** The exclusion in `GreedyEditKeepsClass` is needed: "aB1!@#" has every
      class once and no safe position, so its one lower-case letter, at
      position 0, is overwritten by 'Z'. */
  lemma FallbackLosesClass(s: Password)
    requires s == "aB1!@#"
    ensures Has(s, Lower) && GreedyEdit(s) == "ZB1!@#"
    ensures !Has(GreedyEdit(s), Lower)
  {
    assert InClass(s[0], Lower) && InClass(s[1], Upper) && InClass(s[2], Digit);
    assert NoTriple(s);
    assert forall j :: 0 <= j < |s| ==> !Safe(s, j);
    var t := GreedyEdit(s);
    assert forall j :: 0 <= j < |t| ==> !InClass(t[j], Lower);
  }

  /** Neither checker stops on "!@#$%a", whatever the fuel. */
  lemma NeverStopsExample(p: Password, fuel: nat)
    requires p == "!@#$%a"
    ensures StrongPasswordChecker(p, fuel) == None
    ensures StrongPasswordChecker2(p, fuel) == None
  {
    CheckersAgree(p, fuel, fuel);
    CycleStep1(p);
    var p1 := GreedyEdit(p);
    CycleStep2(p1);
    var p2 := GreedyEdit(p1);
    CycleStep3(p2);
    if fuel > 0 {
      LoopV1Cycles(GreedyEdit, IsStrongPassword, p1, p2, 1, fuel - 1);
    }
  }

  // "aaa111": both runs have length 3, so the first is cut, at its third
  // character; the second is cut on the next iteration. The 'Z' put into
  // the first run already supplies the missing uppercase letter, so the
  // second replacement only breaks the run.

  lemma FirstRunChosen()
    ensures RepeatingIndex("aaa111") == 0
  {
  }

  lemma SecondRunChosen()
    ensures RepeatingIndex("aaZ111") == 3
  {
  }

  lemma RunStep1(s: Password)
    requires s == "aaa111"
    ensures GreedyEdit(s) == "aaZ111" && !Strong(s)
  {
    FirstRunChosen();
    assert InClass(s[0], Lower) && InClass(s[3], Digit);
    assert TripleAt(s, 0);
  }

  lemma RunStep2(s: Password)
    requires s == "aaZ111"
    ensures GreedyEdit(s) == "aaZ11Z" && !Strong(s)
  {
    SecondRunChosen();
    assert InClass(s[0], Lower) && InClass(s[3], Digit);
    assert TripleAt(s, 3);
  }

  lemma RunEndsStrong(s: seq<char>)
    requires s == "aaZ11Z"
    ensures Strong(s)
  {
    assert InClass(s[0], Lower) && InClass(s[2], Upper) && InClass(s[3], Digit);
  }

  /** "aaa111" takes two replacements and ends as "aaZ11Z". */
  lemma RunsExample(p: Password, fuel: nat)
    requires p == "aaa111" && fuel >= 2
    ensures StrongPasswordChecker(p, fuel) == Some(Outcome(2, Trace(p, 2)))
    ensures Trace(p, 2) == "aaZ11Z"
  {
    RunStep1(p);
    var p1 := GreedyEdit(p);
    RunStep2(p1);
    TraceStep(p, 2);
    TraceStep(p1, 1);
    TraceStep(p, 1);
    RunEndsStrong(Trace(p, 2));
    forall m | 0 <= m < 2
      ensures !Strong(Trace(p, m))
    {
    }
    CheckerCountsToFirstStrong(p, fuel, 2);
  }

  /** The refactored loop also takes two replacements, testing after each. */
  lemma RunsExample2(p: Password, fuel: nat)
    requires p == "aaa111" && fuel >= 2
    ensures StrongPasswordChecker2(p, fuel) == Some(2)
  {
    RunStep1(p);
    var p1 := GreedyEdit(p);
    RunStep2(p1);
    var p2 := GreedyEdit(p1);
    RunEndsStrong(p2);
    EnoughMeansStrongWithinBounds(p);
    EnoughMeansStrongWithinBounds(p1);
    EnoughMeansStrongWithinBounds(p2);
    assert LoopV2(GreedyEdit, IsStrongPasswordEnough, p1, 1, fuel - 1) == Some(Outcome(2, p2));
    assert LoopV2(GreedyEdit, IsStrongPasswordEnough, p, 0, fuel) == Some(Outcome(2, p2));
  }

  /** A strong password is answered at once, with no step. */
  lemma AlreadyStrongExample(p: Password, fuel: nat)
    requires p == "1337C0d3" && fuel > 0
    ensures StrongPasswordChecker(p, fuel) == Some(Outcome(0, p))
    ensures StrongPasswordChecker2(p, fuel) == Some(0)
  {
    assert InClass(p[0], Digit) && InClass(p[4], Upper) && InClass(p[6], Lower);
    assert Strong(p);
  }

  /** For "aaaa111" the counting sketch finds one replacement in the run of
      four (length not a multiple of 3) and one in the run of three. */
  lemma CountsExample(p: seq<char>)
    requires p == "aaaa111"
    ensures Solution.ThreeKTotal(Partitions(p)) == 1
    ensures Solution.NotThreeKTotal(Partitions(p)) == 1
  {
    var runs: seq<seq<char>> := ["aaaa", "111"];
    assert Concat(runs) == Concat(runs[..1]) + runs[1];
    assert runs[..1] == ["aaaa"];
    assert Concat(runs) == p;
    PartitionsCharacterised(p, runs);
    assert runs[..1][..0] == [];
  }
}

=== FILE: greedy_loop.dfy ===
/** The shape of the two driver loops, over an arbitrary one-step edit and
    strength test. Each iteration performs one edit and adds one step; `fuel`
    bounds the number of iterations, since the loops need not stop. The
    concrete loops instantiate `edit` with the greedy edit and the tests with
    `isStrongPassword` / `isStrongPasswordEnough`. */
module GreedyLoop {
  import opened Wrappers
  import opened LengthPolicy

  /** The drivers read position 0 of an empty password, so they are only
      defined on nonempty ones. */
  type Password = s: seq<char> | |s| > 0 witness ['a']

  /** The step count and the password the loop ends with. */
  datatype Outcome = Outcome(steps: nat, password: Password)

  predicate InBounds(s: seq<char>) {
    !TooShort(s) && !TooLong(s)
  }

  /** What the loop lemmas assume of an instantiation: a strong password is
      within the length bounds, and one edit changes the length by at most one. */
  ghost predicate LoopFacts(edit: Password -> Password, strong: seq<char> -> bool) {
    && (forall p: Password :: strong(p) ==> InBounds(p))
    && (forall p: Password :: |p| - 1 <= |edit(p)| <= |p| + 1)
  }

  /** The password after `n` iterations' edits. */
  function Replay(edit: Password -> Password, s: Password, n: nat): Password
    decreases n
  {
    if n == 0 then s else Replay(edit, edit(s), n - 1)
  }

  lemma ReplayUnfold(edit: Password -> Password, s: Password, n: nat)
    requires n > 0
    ensures Replay(edit, s, n) == Replay(edit, edit(s), n - 1)
  {
  }

  /** When one edit changes the length by at most one, `n` edits change it by at most `n`. */
  lemma {:induction false} ReplayLength(edit: Password -> Password, s: Password, n: nat)
    requires forall p: Password :: |p| - 1 <= |edit(p)| <= |p| + 1
    ensures |s| - n <= |Replay(edit, s, n)| <= |s| + n
    decreases n
  {
    if n > 0 {
      ReplayLength(edit, edit(s), n - 1);
    }
  }

  // ---------------------------------------------------------------------------
  // v1 shape: test in the length-ok branch before replacing, and after every edit

  function LoopV1(edit: Password -> Password, strong: seq<char> -> bool,
                  s: Password, steps: nat, fuel: nat): (r: Option<Outcome>)
    decreases fuel
    ensures r.Some? ==> strong(r.value.password) && r.value.steps >= steps
    ensures InBounds(s) && strong(s) && fuel > 0 ==> r == Some(Outcome(steps, s))
  {
    if fuel == 0 then None
    else if InBounds(s) && strong(s) then Some(Outcome(steps, s))
    else
      var t := edit(s);
      if strong(t) then Some(Outcome(steps + 1, t))
      else LoopV1(edit, strong, t, steps + 1, fuel - 1)
  }

  /** Every iteration applies `edit` once and adds one step; when strength
      implies the length bounds, the loop stops at the first strong password
      of the trace. */
  lemma {:induction false} LoopV1FollowsTrace(edit: Password -> Password, strong: seq<char> -> bool,
                                              s: Password, steps: nat, fuel: nat)
    requires forall p: Password :: strong(p) ==> InBounds(p)
    requires LoopV1(edit, strong, s, steps, fuel).Some?
    ensures var o := LoopV1(edit, strong, s, steps, fuel).value;
      && o.password == Replay(edit, s, o.steps - steps)
      && forall n :: 0 <= n < o.steps - steps ==> !strong(Replay(edit, s, n))
    decreases fuel
  {
    var o := LoopV1(edit, strong, s, steps, fuel).value;
    if !(InBounds(s) && strong(s)) {
      var t := edit(s);
      ReplayUnfold(edit, s, 1);
      if !strong(t) {
        LoopV1FollowsTrace(edit, strong, t, steps + 1, fuel - 1);
        forall n | 0 <= n < o.steps - steps
          ensures !strong(Replay(edit, s, n))
        {
          if n > 0 {
            ReplayUnfold(edit, s, n);
          }
        }
        ReplayUnfold(edit, s, o.steps - steps);
      }
    }
  }

  /** With fuel for `n` iterations, the loop stops no later than a strong
      password `n` edits away. */
  lemma {:induction false} LoopV1ReachesStrong(edit: Password -> Password, strong: seq<char> -> bool,
                                              s: Password, steps: nat, fuel: nat, n: nat)
    requires forall p: Password :: strong(p) ==> InBounds(p)
    requires strong(Replay(edit, s, n)) && fuel >= n && fuel > 0
    ensures LoopV1(edit, strong, s, steps, fuel).Some?
    ensures LoopV1(edit, strong, s, steps, fuel).value.steps <= steps + n
    decreases n
  {
    if n > 0 && !strong(s) {
      var t := edit(s);
      ReplayUnfold(edit, s, n);
      if !strong(t) {
        assert n > 1;
        LoopV1ReachesStrong(edit, strong, t, steps + 1, fuel - 1, n - 1);
      }
    }
  }

  /** From a fresh start, the loop answers the first strong password of the
      trace and its index, which is at least the distance to the length bounds. */
  lemma LoopV1Answer(edit: Password -> Password, strong: seq<char> -> bool, s: Password, fuel: nat)
    requires LoopFacts(edit, strong)
    requires LoopV1(edit, strong, s, 0, fuel).Some?
    ensures LoopV1(edit, strong, s, 0, fuel).value.password
            == Replay(edit, s, LoopV1(edit, strong, s, 0, fuel).value.steps)
    ensures forall n :: 0 <= n < LoopV1(edit, strong, s, 0, fuel).value.steps ==> !strong(Replay(edit, s, n))
    ensures LoopV1(edit, strong, s, 0, fuel).value.steps >= MIN_LEN - |s|
    ensures LoopV1(edit, strong, s, 0, fuel).value.steps >= |s| - MAX_LEN
  {
    var o := LoopV1(edit, strong, s, 0, fuel).value;
    LoopV1FollowsTrace(edit, strong, s, 0, fuel);
    ReplayLength(edit, s, o.steps);
  }

  /** Conversely, with fuel for `n` iterations the loop answers the `n`-th
      password of the trace when it is the first strong one. */
  lemma LoopV1StopsAtFirstStrong(edit: Password -> Password, strong: seq<char> -> bool,
                                 s: Password, fuel: nat, n: nat)
    requires LoopFacts(edit, strong)
    requires strong(Replay(edit, s, n)) && fuel >= n && fuel > 0
    requires forall m :: 0 <= m < n ==> !strong(Replay(edit, s, m))
    ensures LoopV1(edit, strong, s, 0, fuel) == Some(Outcome(n, Replay(edit, s, n)))
  {
    LoopV1ReachesStrong(edit, strong, s, 0, fuel, n);
    LoopV1FollowsTrace(edit, strong, s, 0, fuel);
  }

  /** Two weak passwords that the edit turns into each other trap the loop:
      started on either, it never stops. */
  lemma {:induction false} LoopV1Cycles(edit: Password -> Password, strong: seq<char> -> bool,
                                       a: Password, b: Password, steps: nat, fuel: nat)
    requires edit(a) == b && edit(b) == a && !strong(a) && !strong(b)
    ensures LoopV1(edit, strong, a, steps, fuel) == None
    decreases fuel
  {
    if fuel > 0 {
      LoopV1Cycles(edit, strong, b, a, steps + 1, fuel - 1);
    }
  }

  lemma {:induction false} LoopV1MoreFuel(edit: Password -> Password, strong: seq<char> -> bool,
                                         s: Password, steps: nat, fuel: nat, more: nat)
    requires LoopV1(edit, strong, s, steps, fuel).Some? && more >= fuel
    ensures LoopV1(edit, strong, s, steps, more) == LoopV1(edit, strong, s, steps, fuel)
    decreases fuel
  {
    if !(InBounds(s) && strong(s)) && !strong(edit(s)) {
      LoopV1MoreFuel(edit, strong, edit(s), steps + 1, fuel - 1, more - 1);
    }
  }

  // ---------------------------------------------------------------------------
  // v2 shape: only the length-ok branch tests, before and after replacing

  function LoopV2(edit: Password -> Password, enough: seq<char> -> bool,
                  s: Password, steps: nat, fuel: nat): (r: Option<Outcome>)
    decreases fuel
    ensures r.Some? ==> enough(r.value.password) && r.value.steps >= steps
    ensures InBounds(s) && enough(s) && fuel > 0 ==> r == Some(Outcome(steps, s))
  {
    if fuel == 0 then None
    else if !InBounds(s) then LoopV2(edit, enough, edit(s), steps + 1, fuel - 1)
    else if enough(s) then Some(Outcome(steps, s))
    else
      var t := edit(s);
      if enough(t) then Some(Outcome(steps + 1, t))
      else LoopV2(edit, enough, t, steps + 1, fuel - 1)
  }

  lemma {:induction false} LoopV2MoreFuel(edit: Password -> Password, enough: seq<char> -> bool,
                                         s: Password, steps: nat, fuel: nat, more: nat)
    requires LoopV2(edit, enough, s, steps, fuel).Some? && more >= fuel
    ensures LoopV2(edit, enough, s, steps, more) == LoopV2(edit, enough, s, steps, fuel)
    decreases fuel
  {
    if !InBounds(s) || (!enough(s) && !enough(edit(s))) {
      LoopV2MoreFuel(edit, enough, edit(s), steps + 1, fuel - 1, more - 1);
    }
  }

  // ---------------------------------------------------------------------------
  // The two shapes agree

  /** What the refactoring relies on: the full test is the length test plus
      the reduced test, and a replacement keeps the length. */
  ghost predicate Refactorable(edit: Password -> Password, strong: seq<char> -> bool,
                               enough: seq<char> -> bool) {
    && (forall p: Password :: strong(p) == (InBounds(p) && enough(p)))
    && (forall p: Password :: InBounds(p) ==> |edit(p)| == |p|)
  }

  lemma {:induction false} V1StopsThenV2Stops(edit: Password -> Password, strong: seq<char> -> bool,
                                             enough: seq<char> -> bool, s: Password, steps: nat, fuel: nat)
    requires Refactorable(edit, strong, enough)
    requires LoopV1(edit, strong, s, steps, fuel).Some?
    ensures LoopV2(edit, enough, s, steps, fuel + 1) == LoopV1(edit, strong, s, steps, fuel)
    decreases fuel
  {
    var t := edit(s);
    if !(InBounds(s) && strong(s)) {
      assert InBounds(s) ==> |t| == |s|;
      if !strong(t) {
        V1StopsThenV2Stops(edit, strong, enough, t, steps + 1, fuel - 1);
      }
    }
  }

  lemma {:induction false} V2StopsThenV1Stops(edit: Password -> Password, strong: seq<char> -> bool,
                                             enough: seq<char> -> bool, s: Password, steps: nat, fuel: nat)
    requires Refactorable(edit, strong, enough)
    requires LoopV2(edit, enough, s, steps, fuel).Some?
    ensures LoopV1(edit, strong, s, steps, fuel) == LoopV2(edit, enough, s, steps, fuel)
    decreases fuel
  {
    var t := edit(s);
    assert strong(s) == (InBounds(s) && enough(s));
    assert strong(t) == (InBounds(t) && enough(t));
    if !InBounds(s) {
      if !strong(t) {
        V2StopsThenV1Stops(edit, strong, enough, t, steps + 1, fuel - 1);
      }
    } else if !enough(s) {
      assert |t| == |s|;
      if !enough(t) {
        V2StopsThenV1Stops(edit, strong, enough, t, steps + 1, fuel - 1);
      }
    }
  }

  /** From a fresh start the two shapes agree: each stops when the other
      does, v2 needing at most one more iteration of fuel, and whenever both
      stop they answer the same steps and password. */
  lemma LoopsAgree(edit: Password -> Password, strong: seq<char> -> bool,
                   enough: seq<char> -> bool, s: Password, fuel1: nat, fuel2: nat)
    requires Refactorable(edit, strong, enough)
    ensures LoopV1(edit, strong, s, 0, fuel1).Some? ==> LoopV2(edit, enough, s, 0, fuel1 + 1) == LoopV1(edit, strong, s, 0, fuel1)
    ensures LoopV2(edit, enough, s, 0, fuel2).Some? ==> LoopV1(edit, strong, s, 0, fuel2) == LoopV2(edit, enough, s, 0, fuel2)
    ensures LoopV1(edit, strong, s, 0, fuel1).Some? && LoopV2(edit, enough, s, 0, fuel2).Some? ==>
              LoopV1(edit, strong, s, 0, fuel1) == LoopV2(edit, enough, s, 0, fuel2)
  {
    if LoopV1(edit, strong, s, 0, fuel1).Some? {
      V1StopsThenV2Stops(edit, strong, enough, s, 0, fuel1);
    }
    if LoopV2(edit, enough, s, 0, fuel2).Some? {
      V2StopsThenV1Stops(edit, strong, enough, s, 0, fuel2);
      if LoopV1(edit, strong, s, 0, fuel1).Some? {
        if fuel1 <= fuel2 {
          LoopV1MoreFuel(edit, strong, s, 0, fuel1, fuel2);
        } else {
          LoopV1MoreFuel(edit, strong, s, 0, fuel2, fuel1);
        }
      }
    }
  }
}

=== FILE: length_policy.dfy ===
/** The length bounds of the strong-password policy.
    The Java `checkMinLength` / `checkMaxLength` return true when the bound is
    VIOLATED, so they are named after what they detect here. */
module LengthPolicy {

  const MIN_LEN: nat := 6
  const MAX_LEN: nat := 20

  /** `checkMinLength`: the password is shorter than the minimum. */
  predicate TooShort(s: seq<char>) {
    |s| < MIN_LEN
  }

  /** `checkMaxLength`: the password is longer than the maximum. */
  predicate TooLong(s: seq<char>) {
    |s| > MAX_LEN
  }
}

=== FILE: runs.dfy ===
/** Run analysis (`repeatingIndex`): the password is split into maximal runs of
    equal characters, and the start of one run of length at least 3 is chosen,
    preferring length % 3 == 0, then % 3 == 1, then % 3 == 2. */
module Runs {

  /** Concatenation of pieces, peeled from the back, so that appending a piece
      (as the Java partition loop does) is one unfolding. */
  function Concat(parts: seq<seq<char>>): seq<char>
  {
    if |parts| == 0 then [] else Concat(parts[..|parts| - 1]) + parts[|parts| - 1]
  }

  ghost predicate Uniform(s: seq<char>) {
    forall j :: 0 <= j < |s| ==> s[j] == s[0]
  }

  /** `parts` lists maximal runs: nonempty pieces of one repeated character,
      consecutive pieces repeating different characters. */
  ghost predicate IsRunDecomposition(parts: seq<seq<char>>) {
    && (forall k :: 0 <= k < |parts| ==> |parts[k]| > 0 && Uniform(parts[k]))
    && (forall k :: 0 < k < |parts| ==> parts[k - 1][0] != parts[k][0])
  }

  /** Three equal characters start at position `i`. */
  predicate TripleAt(s: seq<char>, i: int) {
    0 <= i && i + 2 < |s| && s[i] == s[i + 1] && s[i + 1] == s[i + 2]
  }

  /** The repeat rule of the policy: no three identical consecutive characters. */
  ghost predicate NoTriple(s: seq<char>) {
    forall i :: !TripleAt(s, i)
  }

  /** Offset in `Concat(parts)` at which piece `k` starts. */
  function Offset(parts: seq<seq<char>>, k: nat): nat
    requires k <= |parts|
  {
    |Concat(parts[..k])|
  }

  // ---------------------------------------------------------------------------
  // Facts about Concat and Offset

  lemma ConcatAppend(parts: seq<seq<char>>, x: seq<char>)
    ensures Concat(parts + [x]) == Concat(parts) + x
  {
    assert (parts + [x])[..|parts|] == parts;
  }

  lemma {:induction false} ConcatPrefix(parts: seq<seq<char>>, m: nat)
    requires m <= |parts|
    ensures Concat(parts[..m]) <= Concat(parts)
    decreases |parts|
  {
    if m < |parts| {
      var init := parts[..|parts| - 1];
      assert init[..m] == parts[..m];
      ConcatPrefix(init, m);
    } else {
      assert parts[..m] == parts;
    }
  }

  lemma OffsetStep(parts: seq<seq<char>>, k: nat)
    requires k < |parts|
    ensures Offset(parts, k + 1) == Offset(parts, k) + |parts[k]|
    ensures Concat(parts[..k + 1]) == Concat(parts[..k]) + parts[k]
  {
    assert parts[..k + 1] == parts[..k] + [parts[k]];
    ConcatAppend(parts[..k], parts[k]);
  }

  /** Character `j` of piece `k` sits at `Offset(parts, k) + j` of the concatenation. */
  lemma ConcatIndex(parts: seq<seq<char>>, k: nat, j: nat)
    requires k < |parts| && j < |parts[k]|
    ensures Offset(parts, k) + j < |Concat(parts)|
    ensures Concat(parts)[Offset(parts, k) + j] == parts[k][j]
  {
    OffsetStep(parts, k);
    ConcatPrefix(parts, k + 1);
  }

  /** The last character of a run decomposition's concatenation is the
      character of its last run. */
  lemma ConcatLast(parts: seq<seq<char>>)
    requires IsRunDecomposition(parts) && |parts| > 0
    ensures |Concat(parts)| >= |parts[|parts| - 1]| > 0
    ensures Concat(parts)[|Concat(parts)| - 1] == parts[|parts| - 1][0]
  {
  }

  lemma ExtendDecomposition(parts: seq<seq<char>>, x: seq<char>)
    requires IsRunDecomposition(parts)
    requires |x| > 0 && Uniform(x)
    requires |parts| > 0 ==> parts[|parts| - 1][0] != x[0]
    ensures IsRunDecomposition(parts + [x])
  {
  }

  // ---------------------------------------------------------------------------
  // The partition loop

  /** The partition loop of `repeatingIndex`: `i` scans from 1, a piece is
      closed whenever `s[i - 1] != s[i]`, and after the loop the trailing piece
      `s[prev..]` is always added. */
  function PartitionLoop(s: seq<char>, acc: seq<seq<char>>, prev: nat, i: nat): seq<seq<char>>
    requires prev < i <= |s| + 1 && prev <= |s|
    decreases |s| - i
  {
    if i >= |s| then acc + [s[prev..]]
    else if s[i - 1] != s[i] then PartitionLoop(s, acc + [s[prev..i]], i, i + 1)
    else PartitionLoop(s, acc, prev, i + 1)
  }

  /** The loop keeps: `acc` decomposes `s[..prev]` into maximal runs,
      `s[prev..i]` repeats one character, and that character differs from the
      one before `prev`. It then ends with a run decomposition of all of `s`. */
  lemma {:induction false} PartitionLoopDecomposes(s: seq<char>, acc: seq<seq<char>>, prev: nat, i: nat)
    requires prev < i <= |s| + 1 && prev < |s|
    requires IsRunDecomposition(acc) && Concat(acc) == s[..prev]
    requires forall j :: prev <= j < i && j < |s| ==> s[j] == s[prev]
    requires 0 < prev ==> s[prev - 1] != s[prev]
    ensures IsRunDecomposition(PartitionLoop(s, acc, prev, i))
    ensures Concat(PartitionLoop(s, acc, prev, i)) == s
    decreases |s| - i
  {
    if |acc| > 0 {
      ConcatLast(acc);
    }
    if i >= |s| {
      ExtendDecomposition(acc, s[prev..]);
      ConcatAppend(acc, s[prev..]);
      assert s[..prev] + s[prev..] == s;
    } else if s[i - 1] != s[i] {
      var piece := s[prev..i];
      ExtendDecomposition(acc, piece);
      ConcatAppend(acc, piece);
      assert s[..prev] + piece == s[..i];
      PartitionLoopDecomposes(s, acc + [piece], i, i + 1);
    } else {
      PartitionLoopDecomposes(s, acc, prev, i + 1);
    }
  }

  /** The partition list of `repeatingIndex`. As in `repeatingIndex`, the
      empty password yields one empty partition. */
  function Partitions(s: seq<char>): (parts: seq<seq<char>>)
    ensures |s| == 0 ==> parts == [[]]
    ensures |s| > 0 ==> IsRunDecomposition(parts) && Concat(parts) == s
  {
    if |s| > 0 then PartitionLoopDecomposes(s, [], 0, 1); PartitionLoop(s, [], 0, 1)
    else PartitionLoop(s, [], 0, 1)
  }

  /** A uniform suffix of a run decomposition's concatenation is no longer
      than the last run. */
  lemma UniformSuffixBound(parts: seq<seq<char>>, pre: seq<char>, x: seq<char>)
    requires IsRunDecomposition(parts) && |parts| > 0
    requires Concat(parts) == pre + x && |x| > 0 && Uniform(x)
    ensures |x| <= |parts[|parts| - 1]|
  {
    var s := Concat(parts);
    var l, ip := parts[|parts| - 1], parts[..|parts| - 1];
    assert s == Concat(ip) + l;
    if |ip| > 0 {
      ConcatLast(ip);
      assert parts[|parts| - 2] == ip[|ip| - 1];
      assert s[|s| - 1] == l[0] == x[0];
      assert s[|s| - |l| - 1] == ip[|ip| - 1][0];
    }
  }

  /** Run decompositions are unique: the first run is the longest uniform
      prefix, because the next run starts with a different character. */
  lemma {:induction false} DecompositionUnique(a: seq<seq<char>>, b: seq<seq<char>>)
    requires IsRunDecomposition(a) && IsRunDecomposition(b)
    requires Concat(a) == Concat(b)
    ensures a == b
    decreases |a|
  {
    if |a| == 0 || |b| == 0 {
      if |a| > 0 { ConcatLast(a); }
      if |b| > 0 { ConcatLast(b); }
    } else {
      var s := Concat(a);
      var la, lb := a[|a| - 1], b[|b| - 1];
      var ia, ib := a[..|a| - 1], b[..|b| - 1];
      assert s == Concat(ia) + la && s == Concat(ib) + lb;
      // the last runs agree: each is the longest uniform suffix of s
      UniformSuffixBound(a, Concat(ib), lb);
      UniformSuffixBound(b, Concat(ia), la);
      assert la == s[|s| - |la|..] == lb;
      assert Concat(ia) == s[..|s| - |la|] == Concat(ib);
      DecompositionUnique(ia, ib);
      assert a == ia + [la] && b == ib + [lb];
    }
  }

  /** The Java partition list is THE run decomposition of a nonempty password. */
  lemma PartitionsCharacterised(s: seq<char>, parts: seq<seq<char>>)
    requires |s| > 0
    ensures IsRunDecomposition(parts) && Concat(parts) == s <==> parts == Partitions(s)
  {
    if IsRunDecomposition(parts) && Concat(parts) == s {
      DecompositionUnique(parts, Partitions(s));
    }
  }
}

module RunSelection {
  import opened Runs

  // ---------------------------------------------------------------------------
  // Runs of length >= 3 and triples

  /** A run of length at least 3 starts a triple. */
  lemma BigRunGivesTriple(parts: seq<seq<char>>, k: nat)
    requires IsRunDecomposition(parts) && k < |parts| && |parts[k]| >= 3
    ensures TripleAt(Concat(parts), Offset(parts, k))
  {
    ConcatIndex(parts, k, 0);
    ConcatIndex(parts, k, 1);
    ConcatIndex(parts, k, 2);
  }

  /** The character just before a run is the character of the previous run. */
  lemma RunStartBoundary(parts: seq<seq<char>>, k: nat)
    requires IsRunDecomposition(parts) && 0 < k < |parts|
    ensures 0 < Offset(parts, k) < |Concat(parts)|
    ensures Concat(parts)[Offset(parts, k) - 1] != Concat(parts)[Offset(parts, k)]
  {
    OffsetStep(parts, k - 1);
    ConcatIndex(parts, k - 1, |parts[k - 1]| - 1);
    ConcatIndex(parts, k, 0);
  }

  /** A triple never straddles two runs, so it lies in a run of length >= 3. */
  lemma {:induction false} TripleInBigRun(parts: seq<seq<char>>, i: int)
    requires IsRunDecomposition(parts) && TripleAt(Concat(parts), i)
    ensures exists k :: 0 <= k < |parts| && |parts[k]| >= 3
    decreases |parts|
  {
    var s := Concat(parts);
    var ip, l := parts[..|parts| - 1], parts[|parts| - 1];
    assert s == Concat(ip) + l;
    var n := |Concat(ip)|;
    if |ip| > 0 {
      ConcatLast(ip);
      assert parts[|parts| - 2] == ip[|ip| - 1];
      assert s[n - 1] != s[n];
    }
    if i + 2 < n {
      assert TripleAt(Concat(ip), i);
      TripleInBigRun(ip, i);
      var k :| 0 <= k < |ip| && |ip[k]| >= 3;
      assert parts[k] == ip[k];
    } else if n <= i {
      assert l[i - n] == s[i] && l[i - n + 2] == s[i + 2];
    }
  }

  // ---------------------------------------------------------------------------
  // The selection scan

  /** The maximum-length loop of `repeatingIndex` (0 stands for the
      `Integer.MIN_VALUE` start, which is never the answer on a nonempty list). */
  function MaxLength(parts: seq<seq<char>>): (m: nat)
    ensures forall k :: 0 <= k < |parts| ==> |parts[k]| <= m
    ensures |parts| > 0 ==> exists k :: 0 <= k < |parts| && |parts[k]| == m
  {
    if |parts| == 0 then 0
    else
      var m := MaxLength(parts[..|parts| - 1]);
      if |parts[|parts| - 1]| > m then |parts[|parts| - 1]| else m
  }

  /** The selection loop of `repeatingIndex` from partition `k` on: `cur` is
      the offset of partition `k`, and `mod1` / `mod2` remember the offset of
      the first run seen with length % 3 == 1 / == 2 (-1 while there is none).
      A run with length % 3 == 0 is returned at once. */
  function SelectRun(parts: seq<seq<char>>, k: nat, cur: int, mod1: int, mod2: int): (r: int)
    requires k <= |parts|
    decreases |parts| - k
    ensures r >= cur || r == mod1 || r == mod2 || r == 0
  {
    if k == |parts| then
      if mod1 > -1 then mod1
      else if mod2 > -1 then mod2
      else 0
    else
      var len := |parts[k]|;
      if len < 3 then SelectRun(parts, k + 1, cur + len, mod1, mod2)
      else if len % 3 == 0 then cur
      else SelectRun(parts, k + 1, cur + len,
                     if len % 3 == 1 && mod1 == -1 then cur else mod1,
                     if len % 3 == 2 && mod2 == -1 then cur else mod2)
  }

  /** `repeatingIndex`: -1 when no run has length >= 3, else the start offset
      of the preferred such run. */
  function RepeatingIndex(s: seq<char>): (r: int)
    ensures r >= -1
    ensures r == -1 <==> NoTriple(s)
    ensures r >= 0 ==> TripleAt(s, r) && (r == 0 || s[r - 1] != s[r])
  {
    var parts := Partitions(s);
    NoBigRunIffNoTriple(s);
    if MaxLength(parts) < 3 then -1
    else SelectedRunFacts(s); SelectRun(parts, 0, 0, -1, -1)
  }

  /** The run `repeatingIndex` reports is the preferred one: it has length
      >= 3 and no other such run has a smaller length % 3, or the same one
      and an earlier position. */
  lemma RepeatingIndexPrefers(s: seq<char>)
    requires RepeatingIndex(s) >= 0
    ensures exists k :: Preferred(Partitions(s), k) && RepeatingIndex(s) == Offset(Partitions(s), k)
  {
    NoBigRunIffNoTriple(s);
    SelectedRunFacts(s);
  }

  // ---------------------------------------------------------------------------
  // Specification of the selection

  /** Run `k` has length >= 3 and comes first in the order "length % 3, then
      position": a % 3 == 0 run anywhere beats every % 3 == 1 run, which beats
      every % 3 == 2 run; among equals the leftmost wins. */
  ghost predicate Preferred(parts: seq<seq<char>>, k: int) {
    && 0 <= k < |parts| && |parts[k]| >= 3
    && forall j :: 0 <= j < |parts| && |parts[j]| >= 3 ==>
         || |parts[k]| % 3 < |parts[j]| % 3
         || (|parts[k]| % 3 == |parts[j]| % 3 && k <= j)
  }

  ghost predicate Actionable(parts: seq<seq<char>>, k: int, m: int) {
    0 <= k < |parts| && |parts[k]| >= 3 && |parts[k]| % 3 == m
  }

  /** Index of the first run at or after `from` with length >= 3 and
      length % 3 == m, or |parts| when there is none. */
  ghost function FirstActionable(parts: seq<seq<char>>, m: int, from: nat): (j: nat)
    requires from <= |parts|
    decreases |parts| - from
    ensures from <= j <= |parts|
    ensures j < |parts| ==> Actionable(parts, j, m)
    ensures forall t :: from <= t < j ==> !Actionable(parts, t, m)
  {
    if from == |parts| then |parts|
    else if Actionable(parts, from, m) then from
    else FirstActionable(parts, m, from + 1)
  }

  /** The offset the selection is meant to return, stated without the scan's state. */
  ghost function PreferredOffset(parts: seq<seq<char>>): int {
    var j0, j1, j2 := FirstActionable(parts, 0, 0), FirstActionable(parts, 1, 0), FirstActionable(parts, 2, 0);
    if j0 < |parts| then Offset(parts, j0)
    else if j1 < |parts| then Offset(parts, j1)
    else if j2 < |parts| then Offset(parts, j2)
    else 0
  }

  /** The scan's state after `k` partitions agrees with `FirstActionable`, so
      the scan returns `PreferredOffset`. */
  lemma {:induction false} SelectRunPicksPreferred(parts: seq<seq<char>>, k: nat, cur: int, mod1: int, mod2: int)
    requires k <= |parts| && cur == Offset(parts, k)
    requires FirstActionable(parts, 0, 0) >= k
    requires mod1 == (if FirstActionable(parts, 1, 0) < k then Offset(parts, FirstActionable(parts, 1, 0)) else -1)
    requires mod2 == (if FirstActionable(parts, 2, 0) < k then Offset(parts, FirstActionable(parts, 2, 0)) else -1)
    ensures SelectRun(parts, k, cur, mod1, mod2) == PreferredOffset(parts)
    decreases |parts| - k
  {
    if k < |parts| {
      OffsetStep(parts, k);
      var len := |parts[k]|;
      if len < 3 {
        SelectRunPicksPreferred(parts, k + 1, cur + len, mod1, mod2);
      } else if len % 3 != 0 {
        assert Actionable(parts, k, len % 3);
        var j1, j2 := FirstActionable(parts, 1, 0), FirstActionable(parts, 2, 0);
        var mod1' := if len % 3 == 1 && mod1 == -1 then cur else mod1;
        var mod2' := if len % 3 == 2 && mod2 == -1 then cur else mod2;
        if len % 3 == 1 && j1 >= k {
          assert j1 == k;
        }
        if len % 3 == 2 && j2 >= k {
          assert j2 == k;
        }
        assert mod1' == (if j1 < k + 1 then Offset(parts, j1) else -1);
        assert mod2' == (if j2 < k + 1 then Offset(parts, j2) else -1);
        SelectRunPicksPreferred(parts, k + 1, cur + len, mod1', mod2');
      } else {
        assert Actionable(parts, k, 0);
      }
    }
  }

  /** The preferred offset belongs to a `Preferred` run when any run has length >= 3. */
  lemma PreferredOffsetIsPreferred(parts: seq<seq<char>>, k: nat)
    requires k < |parts| && |parts[k]| >= 3
    ensures exists j :: Preferred(parts, j) && PreferredOffset(parts) == Offset(parts, j)
  {
    var j0, j1, j2 := FirstActionable(parts, 0, 0), FirstActionable(parts, 1, 0), FirstActionable(parts, 2, 0);
    var j := if j0 < |parts| then j0 else if j1 < |parts| then j1 else j2;
    assert Actionable(parts, k, |parts[k]| % 3);
    forall i | 0 <= i < |parts| && |parts[i]| >= 3
      ensures || |parts[j]| % 3 < |parts[i]| % 3
              || (|parts[j]| % 3 == |parts[i]| % 3 && j <= i)
    {
      assert Actionable(parts, i, |parts[i]| % 3);
    }
    assert Preferred(parts, j);
  }

  lemma NoBigRunIffNoTriple(s: seq<char>)
    ensures MaxLength(Partitions(s)) < 3 <==> NoTriple(s)
  {
    var parts := Partitions(s);
    if |s| > 0 {
      if MaxLength(parts) >= 3 {
        var k :| 0 <= k < |parts| && |parts[k]| == MaxLength(parts);
        BigRunGivesTriple(parts, k);
      } else {
        forall i | TripleAt(s, i)
          ensures false
        {
          TripleInBigRun(parts, i);
        }
      }
    }
  }

  lemma SelectedRunFacts(s: seq<char>)
    requires MaxLength(Partitions(s)) >= 3
    ensures var r := SelectRun(Partitions(s), 0, 0, -1, -1);
      && TripleAt(s, r) && (r == 0 || s[r - 1] != s[r])
      && exists k :: Preferred(Partitions(s), k) && r == Offset(Partitions(s), k)
  {
    var parts := Partitions(s);
    var k :| 0 <= k < |parts| && |parts[k]| == MaxLength(parts);
    SelectRunPicksPreferred(parts, 0, 0, -1, -1);
    PreferredOffsetIsPreferred(parts, k);
    var j :| Preferred(parts, j) && PreferredOffset(parts) == Offset(parts, j);
    BigRunGivesTriple(parts, j);
    if j > 0 {
      RunStartBoundary(parts, j);
    }
  }
}

=== FILE: solution.dfy ===
/** The counting sketch `Solution.passwordChecker`: no edits are made; it
    counts the insertions or deletions the length needs and, in one pass over
    the runs of equal characters, tallies the replacements that would break
    each repeat run, split by whether the run length is a multiple of 3. The
    counts are never combined: the method always answers 1. */
module Solution {
  import opened LengthPolicy
  import opened Runs
  import opened RunSelection

  /** Replacements that break a run of length `len`: one per three characters. */
  function RunCost(len: nat): nat {
    len / 3
  }

  /** What `threeKSeq` gets from a run of length `len`. */
  function ThreeKShare(len: nat): (r: nat)
    ensures r > 0 <==> len >= 3 && len % 3 == 0
    ensures r > 0 ==> 3 * r == len
    ensures r + NotThreeKShare(len) == RunCost(len)
  {
    if len % 3 == 0 then len / 3 else 0
  }

  /** What `notThreeKSeq` gets from a run of length `len`. */
  function NotThreeKShare(len: nat): (r: nat)
    ensures len % 3 != 0 ==> r == RunCost(len)
    ensures len % 3 == 0 ==> r == 0
  {
    if len % 3 == 0 then 0
    else if len != 1 && len != 2 then len / 3
    else 0
  }

  /** Running totals over a list of runs, summed from the back as the scan
      adds them. */
  function ThreeKTotal(parts: seq<seq<char>>): nat {
    if |parts| == 0 then 0
    else ThreeKTotal(parts[..|parts| - 1]) + ThreeKShare(|parts[|parts| - 1]|)
  }

  function NotThreeKTotal(parts: seq<seq<char>>): nat {
    if |parts| == 0 then 0
    else NotThreeKTotal(parts[..|parts| - 1]) + NotThreeKShare(|parts[|parts| - 1]|)
  }

  /** Replacements that break every repeat run, with no regard to class or length. */
  function ReplacementTotal(parts: seq<seq<char>>): nat {
    if |parts| == 0 then 0
    else ReplacementTotal(parts[..|parts| - 1]) + RunCost(|parts[|parts| - 1]|)
  }

  /** The two tallies split the replacement total between them. */
  lemma {:induction false} TalliesSplitReplacements(parts: seq<seq<char>>)
    ensures ThreeKTotal(parts) + NotThreeKTotal(parts) == ReplacementTotal(parts)
    decreases |parts|
  {
    if |parts| > 0 {
      TalliesSplitReplacements(parts[..|parts| - 1]);
    }
  }

  /** The replacement total vanishes exactly when every run is shorter than 3. */
  lemma {:induction false} ReplacementTotalZero(parts: seq<seq<char>>)
    ensures ReplacementTotal(parts) == 0 <==> forall k :: 0 <= k < |parts| ==> |parts[k]| < 3
    decreases |parts|
  {
    if |parts| > 0 {
      var init := parts[..|parts| - 1];
      ReplacementTotalZero(init);
      assert forall k :: 0 <= k < |init| ==> init[k] == parts[k];
    }
  }

  /** No replacement is counted exactly when the password has no three
      identical consecutive characters. */
  lemma NoReplacementIffNoTriple(s: seq<char>)
    ensures ReplacementTotal(Partitions(s)) == 0 <==> NoTriple(s)
  {
    var parts := Partitions(s);
    ReplacementTotalZero(parts);
    NoBigRunIffNoTriple(s);
    if MaxLength(parts) >= 3 {
      var k :| 0 <= k < |parts| && |parts[k]| == MaxLength(parts);
    }
  }

  lemma TalliesAppend(parts: seq<seq<char>>, x: seq<char>)
    ensures ThreeKTotal(parts + [x]) == ThreeKTotal(parts) + ThreeKShare(|x|)
    ensures NotThreeKTotal(parts + [x]) == NotThreeKTotal(parts) + NotThreeKShare(|x|)
  {
    assert (parts + [x])[..|parts|] == parts;
  }

  /** A stretch of equal characters is a uniform piece. */
  lemma SliceUniform(s: seq<char>, start: nat, i: nat)
    requires start < i <= |s|
    requires forall j :: start <= j < i ==> s[j] == s[start]
    ensures Uniform(s[start..i])
  {
    var run := s[start..i];
    forall j | 0 <= j < |run|
      ensures run[j] == run[0]
    {
      assert run[j] == s[start + j];
    }
  }

  /** What the scan knows when the run starting at `i - 1` is open: `runs`
      decomposes everything before it into maximal runs, the last of which
      differs from it. */
  ghost predicate Scanned(s: seq<char>, runs: seq<seq<char>>, i: nat) {
    && 1 <= i <= |s| + 1
    && IsRunDecomposition(runs) && Concat(runs) == s[..i - 1]
    && (|runs| > 0 && i <= |s| ==> runs[|runs| - 1][0] != s[i - 1])
  }

  /** Closing the maximal run `s[i - 1..end]` keeps the scan's knowledge, and
      adds the run's shares to the tallies. */
  lemma CloseRun(s: seq<char>, runs: seq<seq<char>>, i: nat, end: nat)
    requires Scanned(s, runs, i) && i <= end <= |s|
    requires forall j :: i - 1 <= j < end ==> s[j] == s[i - 1]
    requires end < |s| ==> s[end] != s[i - 1]
    ensures Scanned(s, runs + [s[i - 1..end]], end + 1)
    ensures ThreeKTotal(runs + [s[i - 1..end]]) == ThreeKTotal(runs) + ThreeKShare(end - (i - 1))
    ensures NotThreeKTotal(runs + [s[i - 1..end]]) == NotThreeKTotal(runs) + NotThreeKShare(end - (i - 1))
  {
    var run := s[i - 1..end];
    SliceUniform(s, i - 1, end);
    ExtendDecomposition(runs, run);
    ConcatAppend(runs, run);
    assert s[..i - 1] + run == s[..end];
    TalliesAppend(runs, run);
  }

  /** When the scan stops on the last position, the final run of length 1
      is never visited: with it the runs closed are the partition of the
      password, and it adds nothing to either tally. */
  lemma LastRunUnvisited(s: seq<char>, runs: seq<seq<char>>)
    requires |s| > 0 && Scanned(s, runs, |s|)
    ensures ThreeKTotal(Partitions(s)) == ThreeKTotal(runs)
    ensures NotThreeKTotal(Partitions(s)) == NotThreeKTotal(runs)
  {
    var last := s[|s| - 1..];
    assert Uniform(last);
    ExtendDecomposition(runs, last);
    ConcatAppend(runs, last);
    assert s[..|s| - 1] + last == s;
    PartitionsCharacterised(s, runs + [last]);
    TalliesAppend(runs, last);
  }

  /** At the end of the scan the runs closed, with a final run of length 1
      the loop may not visit, are the partition of the password. */
  lemma ScanFinish(s: seq<char>, runs: seq<seq<char>>, i: nat)
    requires Scanned(s, runs, i) && i >= |s| > 0
    ensures ThreeKTotal(Partitions(s)) == ThreeKTotal(runs)
    ensures NotThreeKTotal(Partitions(s)) == NotThreeKTotal(runs)
  {
    if i == |s| {
      LastRunUnvisited(s, runs);
    } else {
      assert s[..i - 1] == s;
      PartitionsCharacterised(s, runs);
    }
  }

  /** The first part of `passwordChecker`: the insertions a short password
      needs and the deletions a long one needs, which bring the length into
      bounds, and never both. */
  function LengthCorrection(n: nat): (counts: (nat, nat))
    ensures MIN_LEN <= n + counts.0 - counts.1 <= MAX_LEN
    ensures counts.0 == 0 || counts.1 == 0
    ensures n >= MIN_LEN ==> counts.0 == 0
    ensures n <= MAX_LEN ==> counts.1 == 0
    ensures counts.0 > 0 ==> n + counts.0 == MIN_LEN
    ensures counts.1 > 0 ==> n - counts.1 == MAX_LEN
  {
    if n < MIN_LEN then (MIN_LEN - n, 0)
    else if n > MAX_LEN then (0, n - MAX_LEN)
    else (0, 0)
  }

  /** v1's length checks and v3's counts agree: `checkMinLength` fires
      exactly when insertions are counted, `checkMaxLength` exactly when
      deletions are, and neither fires exactly when the length is in bounds. */
  lemma LengthChecksMatchCounts(s: seq<char>)
    ensures TooShort(s) <==> LengthCorrection(|s|).0 > 0
    ensures TooLong(s) <==> LengthCorrection(|s|).1 > 0
    ensures !TooShort(s) && !TooLong(s) <==> LengthCorrection(|s|) == (0, 0)
  {
  }

  /** The inner loop of the scan: the run of `current` that started at
      `i - 1` is extended as far as it goes; `sequenceLength` counts it. */
  method ExtendRun(password: seq<char>, current: char, i: nat)
    returns (end: nat, sequenceLength: nat)
    requires 0 < i <= |password| && password[i - 1] == current
    ensures i <= end <= |password| && sequenceLength == end - (i - 1)
    ensures forall j :: i - 1 <= j < end ==> password[j] == current
    ensures end < |password| ==> password[end] != current
  {
    end, sequenceLength := i, 1;
    while end < |password| && current == password[end]
      invariant i <= end <= |password|
      invariant sequenceLength == end - (i - 1)
      invariant forall j :: i - 1 <= j < end ==> password[j] == current
    {
      sequenceLength := sequenceLength + 1;
      end := end + 1;
    }
  }

  /** The scan of `passwordChecker` over the runs of equal characters. The
      runs it closes, tracked as a ghost, are the maximal runs of the
      password, so the tallies are the totals over its partition. */
  method ScanRuns(password: seq<char>) returns (threeKSeq: nat, notThreeKSeq: nat)
    requires |password| > 0
    ensures threeKSeq == ThreeKTotal(Partitions(password))
    ensures notThreeKSeq == NotThreeKTotal(Partitions(password))
  {
    var n := |password|;
    threeKSeq, notThreeKSeq := 0, 0;
    var current := password[0];
    var sequenceLength := 1;
    var i := 1;
    // the runs closed so far; the open run starts at i - 1
    ghost var runs := [];
    while i < n
      invariant i <= n ==> current == password[i - 1]
      invariant sequenceLength == 1
      invariant Scanned(password, runs, i)
      invariant threeKSeq == ThreeKTotal(runs) && notThreeKSeq == NotThreeKTotal(runs)
    {
      ghost var start := i - 1;
      var end;
      end, sequenceLength := ExtendRun(password, current, i);

      // a run of length 3k adds k to threeKSeq, a longer one of another
      // length adds its length / 3 to notThreeKSeq, one of length 1 or 2 nothing
      threeKSeq := threeKSeq + ThreeKShare(sequenceLength);
      notThreeKSeq := notThreeKSeq + NotThreeKShare(sequenceLength);
      CloseRun(password, runs, i, end);
      runs := runs + [password[start..end]];

      if end < n {
        current := password[end];
      }
      sequenceLength := 1;
      i := end + 1;
    }

    // a final run of length 1 is never visited; it adds nothing
    ScanFinish(password, runs, i);
  }

  /** `passwordChecker`. The answer is the constant 1; the counts it gathers
      are returned too. It needs a nonempty password, since it reads
      position 0 first. */
  method PasswordChecker(password: seq<char>)
    returns (result: int, insertCount: nat, deleteCount: nat, threeKSeq: nat, notThreeKSeq: nat)
    requires |password| > 0
    ensures result == 1
    ensures (insertCount, deleteCount) == LengthCorrection(|password|)
    ensures threeKSeq == ThreeKTotal(Partitions(password))
    ensures notThreeKSeq == NotThreeKTotal(Partitions(password))
  {
    var counts := LengthCorrection(|password|);
    insertCount, deleteCount := counts.0, counts.1;
    threeKSeq, notThreeKSeq := ScanRuns(password);
    result := 1;
  }
}

=== FILE: validator.dfy ===
/** The first greedy fixer, `PasswordValidator.strongPasswordChecker`: while
    the password is too short it inserts, while too long it deletes, otherwise
    it replaces one character, counting one step per edit, until the password
    is strong. */
module Validator {
  import opened Wrappers
  import opened CharClasses
  import opened LengthPolicy
  import opened Runs
  import opened RunSelection
  import opened Edits
  import opened GreedyLoop

  /** The whole policy: length within bounds, no three identical consecutive
      characters, and a digit, a lowercase and an uppercase letter. */
  ghost predicate Strong(s: seq<char>) {
    MIN_LEN <= |s| <= MAX_LEN && NoTriple(s) && HasAll(s)
  }

  /** `isStrongPassword`. */
  function IsStrongPassword(s: seq<char>): (r: bool)
    ensures r <==> Strong(s)
  {
    if TooShort(s) then false
    else if TooLong(s) then false
    else if RepeatingIndex(s) > -1 then false
    else ContainsProperCharCases(s)
  }

  /** Where an iteration edits: two past the start of the chosen repeat run
      when there is one, else position 0 when inserting and the safe index
      when deleting or replacing. */
  function EditIndex(s: Password): (i: nat)
    ensures i < |s|
    ensures !NoTriple(s) ==> TripleAt(s, i - 2) && (i == 2 || s[i - 3] != s[i - 2])
    ensures NoTriple(s) && TooShort(s) ==> i == 0
    ensures !NoTriple(s) ==> exists k :: Preferred(Partitions(s), k) && i == Offset(Partitions(s), k) + 2
    ensures NoTriple(s) && !TooShort(s) && (exists j :: 0 <= j < |s| && Safe(s, j)) ==>
              Safe(s, i) && forall j :: 0 <= j < i ==> !Safe(s, j)
    ensures NoTriple(s) && !TooShort(s) && (forall j :: 0 <= j < |s| ==> !Safe(s, j)) ==> i == 0
  {
    var repeatIndex := RepeatingIndex(s);
    if repeatIndex > -1 then RepeatingIndexPrefers(s); repeatIndex + 2
    else if TooShort(s) then 0
    else FindSafeIndex(s)
  }

  /** The edit one iteration of the loop body applies: insert while too
      short, delete while too long, replace otherwise. */
  function GreedyEdit(s: Password): (t: Password)
    ensures TooShort(s) ==> |t| == |s| + 1
    ensures TooLong(s) ==> |t| == |s| - 1
    ensures InBounds(s) ==> |t| == |s|
  {
    var index := EditIndex(s);
    if TooShort(s) then AddCharacter(s, index)
    else if TooLong(s) then DeleteCharacter(s, index)
    else ChangeCharacter(s, index)
  }

  /** An insertion is undone by deleting the character it placed. */
  lemma GreedyInsertUndone(s: Password)
    requires TooShort(s)
    ensures DeleteCharacter(GreedyEdit(s), EditIndex(s)) == s
  {
    AddThenDelete(s, EditIndex(s));
  }

  /** An iteration never loses a character class the password has, unless it
      must delete or replace with neither a repeat run to cut nor a safe
      position, and falls back to position 0. */
  lemma GreedyEditKeepsClass(s: Password, k: CharClass)
    requires Has(s, k)
    requires TooShort(s) || !NoTriple(s) || exists j :: 0 <= j < |s| && Safe(s, j)
    ensures Has(GreedyEdit(s), k)
  {
    var index := EditIndex(s);
    if TooShort(s) {
      AddCharacterCoverage(s, index);
    } else if !NoTriple(s) {
      TripleCutKeepsClasses(s, index - 2, k);
    } else {
      SafeCutKeepsClass(s, index, k);
    }
  }

  /** Hence, in the same cases, a password with all three classes keeps them. */
  lemma GreedyEditKeepsCoverage(s: Password)
    requires HasAll(s)
    requires TooShort(s) || !NoTriple(s) || exists j :: 0 <= j < |s| && Safe(s, j)
    ensures HasAll(GreedyEdit(s))
  {
    GreedyEditKeepsClass(s, Digit);
    GreedyEditKeepsClass(s, Lower);
    GreedyEditKeepsClass(s, Upper);
  }

  /** What the loop lemmas need of the greedy edit and of `isStrongPassword`. */
  lemma GreedyLoopFacts()
    ensures LoopFacts(GreedyEdit, IsStrongPassword)
  {
  }

  /** The passwords the v1 loop visits: `Trace(s, n)` is `s` after `n` edits. */
  function Trace(s: Password, n: nat): (t: Password)
    ensures |s| - n <= |t| <= |s| + n
  {
    GreedyLoopFacts();
    ReplayLength(GreedyEdit, s, n);
    Replay(GreedyEdit, s, n)
  }

  /** The trace after the first edit. */
  lemma TraceStep(s: Password, n: nat)
    requires n > 0
    ensures Trace(s, n) == Trace(GreedyEdit(s), n - 1)
  {
    ReplayUnfold(GreedyEdit, s, n);
  }

  /** `strongPasswordChecker` with at most `fuel` iterations, None when the
      fuel runs out. It needs a nonempty password: on "" the first insertion
      reads position 0. */
  function StrongPasswordChecker(password: Password, fuel: nat): (r: Option<Outcome>)
    ensures r.Some? ==> Strong(r.value.password)
    ensures Strong(password) && fuel > 0 ==> r == Some(Outcome(0, password))
  {
    LoopV1(GreedyEdit, IsStrongPassword, password, 0, fuel)
  }

  /** A compliant answer is a fixed point: checking it again takes no steps. */
  lemma CheckerIdempotent(password: Password, fuel: nat, again: nat)
    requires StrongPasswordChecker(password, fuel).Some? && again > 0
    ensures var p := StrongPasswordChecker(password, fuel).value.password;
            StrongPasswordChecker(p, again) == Some(Outcome(0, p))
  {
  }

  /** The answer is the first strong password of the trace and its index,
      and so at least as many steps as the length bounds demand. */
  lemma CheckerFollowsTrace(password: Password, fuel: nat)
    requires StrongPasswordChecker(password, fuel).Some?
    ensures StrongPasswordChecker(password, fuel).value.password
            == Trace(password, StrongPasswordChecker(password, fuel).value.steps)
    ensures forall n :: 0 <= n < StrongPasswordChecker(password, fuel).value.steps ==> !Strong(Trace(password, n))
    ensures StrongPasswordChecker(password, fuel).value.steps >= MIN_LEN - |password|
    ensures StrongPasswordChecker(password, fuel).value.steps >= |password| - MAX_LEN
  {
    GreedyLoopFacts();
    LoopV1Answer(GreedyEdit, IsStrongPassword, password, fuel);
  }

  /** Given fuel for `n` iterations, the checker answers exactly `n` steps
      when the `n`-th password of the trace is the first strong one. */
  lemma CheckerCountsToFirstStrong(password: Password, fuel: nat, n: nat)
    requires Strong(Trace(password, n)) && fuel >= n && fuel > 0
    requires forall m :: 0 <= m < n ==> !Strong(Trace(password, m))
    ensures StrongPasswordChecker(password, fuel) == Some(Outcome(n, Trace(password, n)))
  {
    GreedyLoopFacts();
    forall m | 0 <= m < n
      ensures !IsStrongPassword(Replay(GreedyEdit, password, m))
    {
      assert !Strong(Trace(password, m));
    }
    LoopV1StopsAtFirstStrong(GreedyEdit, IsStrongPassword, password, fuel, n);
  }
}

=== FILE: validator2.dfy ===
/** The refactored fixer, `PasswordValidator2.strongPasswordChecker`: the same
    edits as the first one, but the strength test drops the length checks and
    only runs when the length is already within bounds, and the answer is the
    step count alone. */
module Validator2 {
  import opened Wrappers
  import opened CharClasses
  import opened LengthPolicy
  import opened Runs
  import opened RunSelection
  import opened GreedyLoop
  import opened Validator

  /** `isStrongPasswordEnough`: no repeat run and all three classes, whatever
      the length. */
  function IsStrongPasswordEnough(s: seq<char>): (r: bool)
    ensures r <==> NoTriple(s) && HasAll(s)
  {
    if RepeatingIndex(s) > -1 then false
    else ContainsProperCharCasesFused(s)
  }

  /** Within the length bounds the reduced test is the full one. */
  lemma EnoughMeansStrongWithinBounds(s: seq<char>)
    ensures IsStrongPasswordEnough(s) && InBounds(s) <==> IsStrongPassword(s)
  {
  }

  lemma GreedyRefactorable()
    ensures Refactorable(GreedyEdit, IsStrongPassword, IsStrongPasswordEnough)
  {
  }

  /** `strongPasswordChecker` of the refactored class with at most `fuel`
      iterations, None when the fuel runs out. */
  function StrongPasswordChecker2(password: Password, fuel: nat): (r: Option<nat>)
    ensures Strong(password) && fuel > 0 ==> r == Some(0)
  {
    var o := LoopV2(GreedyEdit, IsStrongPasswordEnough, password, 0, fuel);
    if o.Some? then Some(o.value.steps) else None
  }

  /** The refactoring keeps the answer: the first checker stops exactly when
      the second does (the second may need one more iteration of fuel, since
      it spends one on an insertion or deletion that reaches a strong
      password), and whenever both stop they count the same steps. */
  lemma CheckersAgree(password: Password, fuel1: nat, fuel2: nat)
    ensures StrongPasswordChecker(password, fuel1).Some? ==>
              StrongPasswordChecker2(password, fuel1 + 1) == Some(StrongPasswordChecker(password, fuel1).value.steps)
    ensures StrongPasswordChecker2(password, fuel2).Some? ==>
              && StrongPasswordChecker(password, fuel2).Some?
              && StrongPasswordChecker(password, fuel2).value.steps == StrongPasswordChecker2(password, fuel2).value
    ensures StrongPasswordChecker(password, fuel1).Some? && StrongPasswordChecker2(password, fuel2).Some? ==>
              StrongPasswordChecker(password, fuel1).value.steps == StrongPasswordChecker2(password, fuel2).value
  {
    GreedyRefactorable();
    LoopsAgree(GreedyEdit, IsStrongPassword, IsStrongPasswordEnough, password, fuel1, fuel2);
  }

  /** The count is the index of the first strong password of the trace. */
  lemma Checker2CountsToFirstStrong(password: Password, fuel: nat)
    requires StrongPasswordChecker2(password, fuel).Some?
    ensures Strong(Trace(password, StrongPasswordChecker2(password, fuel).value))
    ensures forall n :: 0 <= n < StrongPasswordChecker2(password, fuel).value ==> !Strong(Trace(password, n))
  {
    CheckersAgree(password, fuel, fuel);
    CheckerFollowsTrace(password, fuel);
  }
}

=== FILE: wrappers.dfy ===
/** An optional value: the outcome of a loop bounded by fuel, `None` when
    the fuel runs out. */
module Wrappers {

  datatype Option<+T> = None | Some(value: T)
}
